=== FILE: README.md ===
# Word ranking core of hardscapes_back, in Dafny

This project models the offline batch step of a word-puzzle backend
(`build_words.py`). The step takes rows of (word, CEFR label), canonicalises
each word, and drops rows whose word holds no ASCII letter. It keeps the
first row per word and looks up a frequency score (zipf). From these it
derives a difficulty and a game level from 1 to 50, keeps words of 3 to 9
letters, and sorts the table by level, then difficulty, then descending zipf.

Modules, in dependency order:

- `Options` (options.dfy): `Option`, standing for Python's `None` and pandas' NaN.
- `Text` (text.dfy): character classes and the `str` primitives the script
  uses. `lower`/`upper` are ASCII case mapping. `strip` removes the
  characters Python's `str.isspace()` accepts.
- `Words` (words.dfy): `normalize` and the `WORD_RE` pattern `^[a-z]+$`,
  including the way `$` also matches before a final newline.
- `Cefr` (cefr.dfy): the `CEFR_ORDER` table and `cefr_to_num`. The "not a
  number" answer is `None`.
- `Scoring` (scoring.dfy): `compute_difficulty`, and `assign_level` with
  Python's round-half-to-even written out over reals.
- `Records` (records.dfy): the row shapes.
- `Dedupe` (dedupe.dfy): `drop_duplicates(keep="first")`.
- `Ranking` (ranking.dfy): the three-key sort, as an insertion sort proved
  to give a ranked permutation and to be stable.
- `Dataset` (dataset.dfy): the pipeline of `main` with the I/O stripped away.
  `BuildTableAsWritten` is the pipeline `main` runs. `BuildTable` is the
  same pipeline with line 74 as intended, dropping missing word cells (see
  "## Findings"). The frequency oracle is a parameter `zipf: string -> real`.

The per-row parts of lines 73-75 (normalise, drop missing, keep regex
matches) are modelled as `Prepare(row): Option<Candidate>`. De-duplication
then skips the `None` rows. This gives the same result as filtering first
and de-duplicating after, because every filter decision depends on its own
row only.

Two behaviours of the code worth stating plainly:

- Tiers outside 1..6 are not treated as undefined. `compute_difficulty`
  only tests for NaN (build_words.py:46) and computes `tier - 1` for any
  other number. `ComputeDifficulty` does the same, so its non-negativity
  and monotonicity are stated for tiers of at least 1 or undefined.
- The frequency oracle has no undefined answer. It returns a number for
  every word (0 for unknown words, giving maximal rarity), and the code has
  no branch for a missing frequency, so zipf is a plain `real`.

When no row survives lines 73-76, the frame reaching line 91 is empty.
pandas' row-wise `apply` then calls the lambda once on a row of NaN, where
`int(r["length"])` raises. pandas falls back to returning a copy of the
whole frame, and assigning that multi-column frame to the single column
`difficulty` raises a `ValueError`. No output is written. `Rank`,
`BuildTable` and `BuildTableAsWritten` return `None` in exactly that case.
A table that becomes empty only at the length filter (line 98) is written
normally, and is `Some([])` here.

The sort of line 99 is on three keys. pandas sorts on several keys through
a lexicographic index sort, which is stable, so rows with equal keys keep
their order. `Ranking.SortRows` is proved stable in the same sense, and
`Dedupe.DropDuplicates` and `Dataset.KeepPlayable` are proved to keep the
input order of the rows they keep.

A consequence worth knowing (`Scoring.LevelCeiling`): zipf is never below 0,
tiers are at most 6 and lengths at most 9. So difficulty never exceeds 15,
and no word is placed above level 38. Levels 39 to 50 stay empty.

## Model

| member | source | states |
|---|---|---|
| `Text.Strip` | build_words.py:23 | `strip()` returns a slice of the input with only whitespace cut from both ends; the result starts and ends with a non-whitespace character or is empty |
| `Text.Lower` | build_words.py:23 | `lower()` keeps the length and maps every character through the ASCII case map |
| `Text.StripUpperCommute` | build_words.py:83 | upper-casing then stripping gives the same string as stripping then upper-casing |
| `Words.KeepLower` | build_words.py:25 | removing `[^a-z]` keeps exactly the characters `a`..`z` of the input, leaves an all-`a`..`z` string unchanged, and never lengthens it |
| `Words.KeepLowerAppend` | build_words.py:25 | the substitution distributes over concatenation, so the kept characters stay in input order |
| `Words.Normalize` | build_words.py:22-26 | the result has only characters `a`..`z`, and it equals the input's ASCII letters, lower-cased and in their original order; stripping changes nothing |
| `Words.NormalizeIdempotent` | build_words.py:22-26 | normalising a normalised word gives it back unchanged |
| `Words.NormalizedMatchIffHasLetter` | build_words.py:73-75 | a normalised word matches `^[a-z]+$` exactly when it is non-empty, which happens exactly when the raw word holds an ASCII letter; the trailing-newline allowance of `$` never applies |
| `Cefr.LookupByLabel` | build_words.py:17 | `CEFR_ORDER` has exactly the six labels as keys and maps the label of tier k to k |
| `Cefr.CefrToNum` | build_words.py:29-33 | the tier is k in 1..6 exactly when the stripped, upper-cased label is the k-th of A1,A2,B1,B2,C1,C2; a missing, empty or unknown label has no tier |
| `Cefr.NormLabel` | build_words.py:83 | `cefr_norm` is clean (no lower-case letter, no surrounding whitespace) and equals the key `cefr_to_num` builds from the same text |
| `Cefr.NormLabelTier` | build_words.py:83-84 | the tier of `cefr_norm` equals the tier of the raw label, so the lookup ignores case and surrounding whitespace |
| `Cefr.TierOfCleanLabel` | build_words.py:83-84 | looking up a clean label such as `cefr_norm` gives tier k exactly when it is the k-th label, and no tier when it is none of the six |
| `Cefr.EasyLabelIsLowTier` | build_words.py:85-88 | a clean label is "A1" or "A2" exactly when its tier is 1 or 2 |
| `Scoring.RoundHalfEven` | build_words.py:60 | `round` gives an integer within one half of its argument, and the even one on a tie |
| `Scoring.RoundHalfEvenUnique` | build_words.py:60 | no other integer meets those two conditions, so they define the rounding |
| `Scoring.RoundHalfEvenMonotone` | build_words.py:60 | rounding never reverses the order of two values |
| `Scoring.Rarity` | build_words.py:45 | rarity is never negative, and it is zero exactly when zipf is at least 7 |
| `Scoring.ComputeDifficulty` | build_words.py:36-49 | difficulty is non-negative for an undefined tier or a tier of at least 1; it is zero exactly for a word with zipf at least 7, tier A1 or undefined, and at most three letters |
| `Scoring.DifficultyMonotone` | build_words.py:44-49 | difficulty is non-increasing in zipf, non-decreasing in tier (an undefined tier ranking as A1) and non-decreasing in length |
| `Scoring.DifficultyBaselines` | build_words.py:46-47 | an undefined tier scores as A1, and lengths up to 3 score as 3 |
| `Scoring.Clamp` | build_words.py:58 | the clamped value lies in [0,20]; it is 0 for every input at or below 0, 20 for every input at or above 20, and the input itself in between |
| `Scoring.AssignLevel` | build_words.py:52-60 | the level is in [1,50]; it is 1 for every difficulty at or below 0 and 50 for every difficulty at or above 20; inside the range, level-1 is within one half of difficulty*49/20 |
| `Scoring.AssignLevelMonotone` | build_words.py:57-60 | a higher difficulty never gives a lower level |
| `Scoring.LevelCeiling` | build_words.py:44-60 | with zipf at least 0, tier at most 6 and length at most 9, difficulty is at most 15 and the level at most 38 |
| `Dedupe.DedupeFrom` | build_words.py:76 | the scan keeps no word twice and none already seen; each kept row is the first surviving row for its word; every surviving word not yet seen is kept; kept rows stay in input order |
| `Dedupe.DropDuplicates` | build_words.py:76 | `drop_duplicates(keep="first")`: the words are distinct, each kept row is the first surviving row with its word, every surviving word is kept, kept rows stay in input order, and the result is empty exactly when no row survived |
| `Ranking.RankLeTotalPreorder` | build_words.py:99 | the (level asc, difficulty asc, zipf desc) order is reflexive, total and transitive |
| `Ranking.Insert` | build_words.py:99 | inserting into a ranked sequence keeps it ranked, adds exactly the one row, and keeps words distinct when the new word is new |
| `Ranking.InsertTies` | build_words.py:99 | an inserted row lands in front of every row whose three keys equal its own, and leaves their order alone |
| `Ranking.SortRows` | build_words.py:99 | the sorted table is ranked by (level asc, difficulty asc, zipf desc), is a permutation of its input, and keeps words distinct |
| `Ranking.SortRowsStable` | build_words.py:99 | the sort is stable: the rows with any given keys come out in their input order |
| `Dataset.PrepareAsWritten` | build_words.py:73-75 | as written, a row survives exactly when the text of its word cell ("nan" for a missing cell) holds an ASCII letter, and then carries the normalised word |
| `Dataset.Prepare` | build_words.py:73-75 | with missing word cells dropped (line 74 as intended), a row survives exactly when its word cell is present and holds an ASCII letter, and then carries the normalised word |
| `Dataset.CefrNormTier` | build_words.py:83-84 | the tier looked up from `cefr_norm` equals `cefr_to_num` of the raw cell; a missing cell becomes "NAN", which has no tier |
| `Dataset.Derive` | build_words.py:79-95 | a derived row keeps the word and zipf, has length equal to the word's length, its tier is that of the raw CEFR cell, its difficulty is computed from zipf, that tier and length and is non-negative, its level is `assign_level(difficulty)`, and it is easy exactly when that tier is 1 or 2 or its zipf is at least 4.8 |
| `Dataset.KeepPlayable` | build_words.py:98 | the kept rows are exactly the input rows of length 3 to 9, any two of them in their input order, and distinct words stay distinct |
| `Dataset.KeepPlayableAppend` | build_words.py:98 | the boolean-mask filter distributes over concatenation, so it drops rows without reordering or merging the ones it keeps |
| `Dataset.Rank` | build_words.py:76-99 | the program stops with an error exactly when no row survived the filters; otherwise the table is ranked, has distinct words and well-formed rows, each derived from the kept row for its word, and every surviving word of length 3..9 is present |
| `Dataset.KeptIsFirstRow` | build_words.py:73-76 | a row kept by de-duplication is the first input row whose present word normalises to that word |
| `Dataset.KeptIsFirstCell` | build_words.py:73-76 | as written, a row kept by de-duplication is the first input row whose cell text normalises to that word |
| `Dataset.BuildTable` | build_words.py:73-99 | with missing word cells dropped (line 74 as intended), the program stops with an error exactly when no present word cell holds an ASCII letter; otherwise the output is sorted by level, difficulty and descending zipf; words are unique; every row has length 3..9 equal to its word's length, only `a`..`z` letters, level = assign_level(difficulty), and is_easy exactly when cefr_norm is A1/A2 or zipf >= 4.8; every row comes from the first input row with its word; every input word of playable length is present |
| `Dataset.BuildTableAsWritten` | build_words.py:73-99 | with lines 73-74 as written, the program stops with an error exactly when no cell text holds an ASCII letter; otherwise the table is ranked, duplicate-free and well formed, every row comes from the first row whose cell text gives its word, and every playable word of the cells' text is present |
| `Dataset.MissingCellGivesNan` | build_words.py:73-74 | as written, any table with a missing word cell contains the word "nan" |
| `Dataset.PresentWordsOnly` | build_words.py:73-76 | with missing cells dropped, every word of a table is what some present word cell normalises to |
| `Dataset.OneWordTable` | build_words.py:73-76 | with missing cells dropped, when one playable word is the only present word, the table's words are exactly that word |
| `Dataset.MissingWordBecomesNan` | build_words.py:73-74 | as written, a missing word cell next to a playable word passes the filters as "nan", and "nan" is in the table built from the two rows |
| `Dataset.MissingWordDropped` | build_words.py:73-74 | with the missing cell dropped, the same two rows give a table whose only word is the playable one |
| `Dataset.OnlyMissingWordsStops` | build_words.py:91-94 | with the missing cell dropped, a single row with a missing word leaves nothing for line 91, so the program stops with its error |

## Left out

- CSV reading and writing, creating the output directory, and printing (build_words.py:12-14, 64-70, 101-103) are file I/O. The missing-file and missing-column errors are not modelled. Rows arrive as typed values, and the CSV parser's own list of spellings it reads as missing is not modelled.
- `wordfreq.zipf_frequency` (build_words.py:9, 79) is a foreign library. It is the parameter `zipf: string -> real`.
- SQLite persistence and its swallowed exceptions (build_words.py:105-115) are storage plumbing. The extra `cefr` and `cefr_num` columns that only the SQLite table keeps are not modelled.
- api.py is not part of this model. It holds HTTP routing, CORS settings and SQL strings run by SQLite, with no logic of its own.
- IEEE-754 floating point is idealised as exact reals. So 0.35, 0.9, 1.2 and 4.8 are exact, and ties in `d/20*49` fall exactly on .5, where a float computation might land just beside them.
- A NaN zipf is not modelled. The oracle returns a number for every word.
- Python's Unicode case mapping is modelled as ASCII only. Characters such as the Kelvin sign, which Python lower-cases to `k`, are not covered.
- Dataset.Rank: its own contract does not state the order of rows with equal keys. Each step's order is proved: `DropDuplicates` and `KeepPlayable` keep input order, `DeriveAll` works position by position, and `SortRows` is stable. The composition of these into one clause about `Rank` is not written out.
- Dataset.BuildTable and Dataset.BuildTableAsWritten: `None` stands for the `ValueError` raised at line 91. Its message and the absence of an output file are not modelled.

## Findings

| source | as written | input that shows it | evidently intended | confidence | as-written member | corrected member |
|---|---|---|---|---|---|---|
| build_words.py:73-74 | the word column is turned into text with `astype(str)` before `dropna(subset=["word"])`, so a missing cell is already the text "nan", `dropna` removes nothing, and "nan" is ranked as a word | a row whose word cell is empty, next to a row with a playable word | rows with a missing word are dropped, as the `dropna` line sets out to do | medium, not executed; depends on `astype(str)` turning a missing cell into "nan", as pandas 1.x and 2.x do | `Dataset.MissingWordBecomesNan` | `Dataset.MissingWordDropped` |

`Dataset.BuildTable` uses the corrected `Dataset.Prepare`. Its contract proves
that every output row comes from an input row whose word cell is present.

=== FILE: cefr.dfy ===
/**
  The CEFR proficiency table (build_words.py `CEFR_ORDER`) and the lookup
  `cefr_to_num`, whose "not a number" answer is `None` here.
 */
module Cefr {
  import opened Options
  import opened Text

  /** `CEFR_ORDER`: the six labels and their tiers. */
  const CefrOrder: map<string, int> := map["A1" := 1, "A2" := 2, "B1" := 3, "B2" := 4, "C1" := 5, "C2" := 6]

  /** The six labels from most basic to most advanced. */
  const CefrLabels: seq<string> := ["A1", "A2", "B1", "B2", "C1", "C2"]

  /** The label of tier k. */
  function LabelOf(k: int): string
    requires 1 <= k <= 6
  {
    CefrLabels[k - 1]
  }

  /** Looking a key up in `CEFR_ORDER` gives k exactly when the key is the label of tier k. */
  lemma LookupByLabel(key: string)
    ensures key in CefrOrder <==> key in CefrLabels
    ensures key in CefrOrder ==> 1 <= CefrOrder[key] <= 6
    ensures forall k :: 1 <= k <= 6 ==> (key in CefrOrder && CefrOrder[key] == k <==> key == LabelOf(k))
  {
    var labels := CefrLabels;
    assert labels[0] == "A1" && labels[1] == "A2" && labels[2] == "B1";
    assert labels[3] == "B2" && labels[4] == "C1" && labels[5] == "C2";
    forall i, j | 0 <= i < j < 6
      ensures labels[i] != labels[j]
    {
      assert labels[i][0] != labels[j][0] || labels[i][1] != labels[j][1];
    }
    assert key in CefrOrder <==> key in labels;
  }

  /**
    `cefr_to_num(level)`: a missing or empty label has no tier; otherwise
    the label is stripped and upper-cased and looked up in `CEFR_ORDER`.
    The tier is k exactly when the cleaned label is the label of tier k.
   */
  function CefrToNum(level: Option<string>): (tier: Option<int>)
    ensures tier.Some? ==> 1 <= tier.value <= 6
    ensures forall k :: 1 <= k <= 6 ==>
              (tier == Some(k) <==> level.Some? && Upper(Strip(level.value)) == LabelOf(k))
    ensures tier.None? <==> level.None? || Upper(Strip(level.value)) !in CefrLabels
  {
    match level
    case None => None
    case Some(s) =>
      var key := Upper(Strip(s));
      LookupByLabel(key);
      if s == "" then
        assert key == "";
        None
      else if key in CefrOrder then Some(CefrOrder[key])
      else None
  }

  /** A label as the pipeline stores it: no lower-case letter, no surrounding whitespace. */
  predicate CleanLabel(n: string) {
    NoLower(n) && (|n| == 0 || (!IsSpace(n[0]) && !IsSpace(n[|n| - 1])))
  }

  /**
    Upper-casing then stripping, as the pipeline builds `cefr_norm`.  The
    result is clean, and it is the key `cefr_to_num` itself would build
    from `s` (strip first, then upper-case).
   */
  function NormLabel(s: string): (n: string)
    ensures CleanLabel(n)
    ensures n == Upper(Strip(s))
  {
    StripKeepsNoLower(Upper(s));
    StripUpperCommute(s);
    Strip(Upper(s))
  }

  /**
    On a clean label the lookup's own strip and upper-case do nothing: the
    tier is k exactly when the label is that of tier k, and undefined when
    it is none of the six.
   */
  lemma TierOfCleanLabel(n: string)
    requires CleanLabel(n)
    ensures forall k :: 1 <= k <= 6 ==> (CefrToNum(Some(n)) == Some(k) <==> n == LabelOf(k))
    ensures CefrToNum(Some(n)).None? <==> n !in CefrLabels
  {
    StripOfTrimmed(n);
    UpperOfNoLower(n);
  }

  /** A clean label is "A1" or "A2" exactly when its tier is 1 or 2. */
  lemma EasyLabelIsLowTier(n: string)
    requires CleanLabel(n)
    ensures n in ["A1", "A2"] <==> CefrToNum(Some(n)) in {Some(1), Some(2)}
  {
    TierOfCleanLabel(n);
    assert LabelOf(1) == "A1" && LabelOf(2) == "A2";
  }

  /**
    Looking up the pipeline's `cefr_norm` gives the tier of the raw label:
    `cefr_to_num(s.upper().strip()) == cefr_to_num(s)`, so the tier does not
    depend on case or surrounding whitespace.
   */
  lemma NormLabelTier(s: string)
    ensures CefrToNum(Some(NormLabel(s))) == CefrToNum(Some(s))
  {
    var n := NormLabel(s);
    TierOfCleanLabel(n);
    var t := CefrToNum(Some(s));
    if t.Some? {
      assert n == LabelOf(t.value);
    }
  }

  /** Every label has two characters, so a clean label of any other length has no tier. */
  lemma NoTierUnlessTwoChars(n: string)
    requires CleanLabel(n) && |n| != 2
    ensures CefrToNum(Some(n)) == None
  {
    TierOfCleanLabel(n);
    assert forall k :: 0 <= k < |CefrLabels| ==> |CefrLabels[k]| == 2;
  }
}

=== FILE: dataset.dfy ===
/**
  The row transformations of build_words.py `main` once file I/O is taken
  away: normalise and filter the words, drop duplicates, look up the
  frequency, derive the scored columns, keep playable lengths and sort.
  The frequency oracle (`zipf_frequency(w, "en")`) is a parameter.
 */
module Dataset {
  import opened Options
  import opened Text
  import opened Words
  import opened Cefr
  import opened Scoring
  import opened Records
  import opened Dedupe
  import opened Ranking

  /** Words at least this common are easy whatever their CEFR label. */
  const EasyZipf: real := 4.8

  /** Playable word lengths, inclusive. */
  const MinLength: int := 3
  const MaxLength: int := 9

  /** pandas `astype(str)`: a missing cell becomes the text "nan". */
  function CellText(cell: Option<string>): string {
    match cell
    case None => "nan"
    case Some(s) => s
  }

  /** The `cefr_norm` column: the cell as text, upper-cased, then stripped. */
  function CefrNorm(cell: Option<string>): string {
    NormLabel(CellText(cell))
  }

  /**
    Lines 73-75 for one row exactly as written: the word cell is turned into
    text first, so a missing cell becomes "nan" before `dropna` looks at it,
    and the row survives whenever that text holds an ASCII letter.
   */
  function PrepareAsWritten(row: RawRow): (c: Option<Candidate>)
    ensures c.Some? <==> HasLetter(CellText(row.word))
    ensures c.Some? ==> c.value == Candidate(Normalize(CellText(row.word)), row.cefr)
  {
    var w := Normalize(CellText(row.word));
    NormalizedMatchIffHasLetter(CellText(row.word));
    if MatchesWordRe(w) then Some(Candidate(w, row.cefr)) else None
  }

  /**
    Lines 73-75 for one row as intended: a missing word cell is dropped;
    otherwise the row survives exactly when its word holds an ASCII letter,
    and carries the normalised word.
   */
  function Prepare(row: RawRow): (c: Option<Candidate>)
    ensures c.Some? <==> row.word.Some? && HasLetter(row.word.value)
    ensures c.Some? ==> c.value == Candidate(Normalize(row.word.value), row.cefr)
  {
    match row.word
    case None => None
    case Some(_) => PrepareAsWritten(row)
  }

  /**
    The tier of `cefr_norm` (line 84) is the tier of the raw cell: a missing
    cell becomes "NAN", which has no tier, and otherwise upper-casing and
    stripping first changes nothing `cefr_to_num` would not do itself.
   */
  lemma CefrNormTier(cell: Option<string>)
    ensures CefrToNum(Some(CefrNorm(cell))) == CefrToNum(cell)
  {
    match cell
    case None =>
      StripOfTrimmed("nan");
      NoTierUnlessTwoChars(NormLabel("nan"));
    case Some(s) =>
      NormLabelTier(s);
  }

  /**
    Lines 79-95 for one row.  The tier looked up from `cefr_norm` is the
    tier of the raw CEFR cell; difficulty and level follow from it, and the
    easy flag is stated through it: a word is easy exactly when its tier is
    1 or 2 or its zipf reaches 4.8.
   */
  function Derive(c: Candidate, zipf: real): (r: WordRecord)
    ensures r.word == c.word && r.zipf == zipf && r.length == |c.word|
    ensures r.cefrNorm == CefrNorm(c.cefr)
    ensures CefrToNum(Some(r.cefrNorm)) == CefrToNum(c.cefr)
    ensures r.difficulty == ComputeDifficulty(zipf, CefrToNum(c.cefr), r.length)
    ensures r.isEasy <==> CefrToNum(c.cefr) in {Some(1), Some(2)} || zipf >= EasyZipf
    ensures r.difficulty >= 0.0
    ensures r.level == AssignLevel(r.difficulty)
    ensures 1 <= r.level <= 50
  {
    var norm := CefrNorm(c.cefr);
    var tier := CefrToNum(Some(norm));
    EasyLabelIsLowTier(norm);
    CefrNormTier(c.cefr);
    var difficulty := ComputeDifficulty(zipf, tier, |c.word|);
    WordRecord(c.word, zipf, norm, norm in ["A1", "A2"] || zipf >= EasyZipf, |c.word|, difficulty, AssignLevel(difficulty))
  }

  function DeriveAll(cs: seq<Candidate>, zipf: string -> real): (rs: seq<WordRecord>)
    ensures |rs| == |cs|
    ensures forall k :: 0 <= k < |cs| ==> rs[k] == Derive(cs[k], zipf(cs[k].word))
  {
    seq(|cs|, k requires 0 <= k < |cs| => Derive(cs[k], zipf(cs[k].word)))
  }

  predicate Playable(r: WordRecord) {
    MinLength <= r.length <= MaxLength
  }

  /** `a` sits at an earlier position of `rs` than `b`. */
  predicate OccursBefore(rs: seq<WordRecord>, a: WordRecord, b: WordRecord) {
    exists i, j :: 0 <= i < j < |rs| && rs[i] == a && rs[j] == b
  }

  /** Every two rows of `r` sit in `rs` in the same order. */
  predicate InOrderOf(rs: seq<WordRecord>, r: seq<WordRecord>) {
    forall k1, k2 :: 0 <= k1 < k2 < |r| ==> OccursBefore(rs, r[k1], r[k2])
  }

  /** Order within the tail of `rs` is order within `rs`. */
  lemma InOrderOfTail(rs: seq<WordRecord>, r: seq<WordRecord>)
    requires |rs| > 0 && InOrderOf(rs[1..], r)
    ensures InOrderOf(rs, r)
  {
    forall k1, k2 | 0 <= k1 < k2 < |r|
      ensures OccursBefore(rs, r[k1], r[k2])
    {
      var i, j :| 0 <= i < j < |rs| - 1 && rs[1..][i] == r[k1] && rs[1..][j] == r[k2];
      assert rs[i + 1] == r[k1] && rs[j + 1] == r[k2];
    }
  }

  /** Putting the head of `rs` in front of rows ordered within its tail keeps the order. */
  lemma InOrderOfCons(rs: seq<WordRecord>, rest: seq<WordRecord>)
    requires |rs| > 0 && InOrderOf(rs[1..], rest)
    requires forall x :: x in rest ==> x in rs[1..]
    ensures InOrderOf(rs, [rs[0]] + rest)
  {
    var r := [rs[0]] + rest;
    InOrderOfTail(rs, rest);
    forall k1, k2 | 0 <= k1 < k2 < |r|
      ensures OccursBefore(rs, r[k1], r[k2])
    {
      assert r[k2] == rest[k2 - 1];
      if k1 == 0 {
        assert rest[k2 - 1] in rs[1..];
        var j :| 0 <= j < |rs| - 1 && rs[1..][j] == rest[k2 - 1];
        assert rs[0] == r[k1] && rs[j + 1] == r[k2];
      } else {
        assert r[k1] == rest[k1 - 1];
        assert OccursBefore(rs, rest[k1 - 1], rest[k2 - 1]);
      }
    }
  }

  /** Line 98: keep the rows of playable length, and only those, in their order. */
  function KeepPlayable(rs: seq<WordRecord>): (r: seq<WordRecord>)
    ensures forall x :: x in r <==> x in rs && Playable(x)
    ensures InOrderOf(rs, r)
    ensures UniqueWords(rs) ==> UniqueWords(r)
  {
    if |rs| == 0 then []
    else
      var rest := KeepPlayable(rs[1..]);
      assert rs == [rs[0]] + rs[1..];
      if Playable(rs[0]) then
        InOrderOfCons(rs, rest);
        assert UniqueWords(rs) ==> UniqueWords([rs[0]] + rest) by {
          if UniqueWords(rs) {
            forall k | 0 <= k < |rest|
              ensures rest[k].word != rs[0].word
            {
              assert rest[k] in rs[1..];
              var m :| 0 <= m < |rs| - 1 && rs[1..][m] == rest[k];
              assert rs[m + 1] == rest[k];
            }
            UniqueCons(rs[0], rest);
          }
        }
        [rs[0]] + rest
      else
        InOrderOfTail(rs, rest);
        rest
  }

  /** Filtering line 98's mask distributes over concatenation, so nothing is reordered or merged. */
  lemma {:induction false} KeepPlayableAppend(a: seq<WordRecord>, b: seq<WordRecord>)
    ensures KeepPlayable(a + b) == KeepPlayable(a) + KeepPlayable(b)
    decreases |a|
  {
    if |a| == 0 {
      assert a + b == b;
    } else {
      assert (a + b)[1..] == a[1..] + b;
      KeepPlayableAppend(a[1..], b);
    }
  }

  /** What every row of the output table satisfies, whatever input produced it. */
  predicate WellFormedRow(r: WordRecord, zipf: string -> real) {
    && MinLength <= r.length <= MaxLength
    && r.length == |r.word|
    && AllLower(r.word)
    && r.zipf == zipf(r.word)
    && r.difficulty == ComputeDifficulty(r.zipf, CefrToNum(Some(r.cefrNorm)), r.length)
    && r.level == AssignLevel(r.difficulty)
    && (r.isEasy <==> r.cefrNorm in ["A1", "A2"] || r.zipf >= EasyZipf)
  }

  lemma DerivedRowWellFormed(c: Candidate, zipf: string -> real)
    requires AllLower(c.word)
    requires MinLength <= |c.word| <= MaxLength
    ensures WellFormedRow(Derive(c, zipf(c.word)), zipf)
  {
  }

  lemma DeriveAllUnique(cs: seq<Candidate>, zipf: string -> real)
    requires DistinctWords(cs)
    ensures UniqueWords(DeriveAll(cs, zipf))
  {
    var rs := DeriveAll(cs, zipf);
    forall i, j | 0 <= i < j < |rs|
      ensures rs[i].word != rs[j].word
    {
      assert rs[i].word == cs[i].word && rs[j].word == cs[j].word;
    }
  }

  /** Each ranked row is a playable, well-formed derivation of a kept row. */
  lemma RankedRowsSound(cands: seq<Option<Candidate>>, zipf: string -> real, unique: seq<Candidate>, t: seq<WordRecord>)
    requires forall i :: 0 <= i < |cands| && cands[i].Some? ==> AllLower(cands[i].value.word)
    requires Sound(cands, {}, unique)
    requires forall r :: r in t ==> r in DeriveAll(unique, zipf) && Playable(r)
    ensures forall r :: r in t ==> WellFormedRow(r, zipf)
    ensures forall r :: r in t ==>
              exists i :: 0 <= i < |cands| && KeptAt(cands, {}, i) && r == Derive(cands[i].value, zipf(r.word))
  {
    var derived := DeriveAll(unique, zipf);
    forall r | r in t
      ensures WellFormedRow(r, zipf)
      ensures exists i :: 0 <= i < |cands| && KeptAt(cands, {}, i) && r == Derive(cands[i].value, zipf(r.word))
    {
      var k :| 0 <= k < |derived| && derived[k] == r;
      assert KeptSomewhere(cands, {}, unique[k]);
      var i :| 0 <= i < |cands| && KeptAt(cands, {}, i) && cands[i].value == unique[k];
      DerivedRowWellFormed(unique[k], zipf);
    }
  }

  /** Every playable surviving word reaches the ranked table. */
  lemma RankedRowsComplete(cands: seq<Option<Candidate>>, zipf: string -> real, unique: seq<Candidate>, t: seq<WordRecord>)
    requires Complete(cands, {}, unique)
    requires forall r :: r in DeriveAll(unique, zipf) && Playable(r) ==> r in t
    ensures forall i :: 0 <= i < |cands| && cands[i].Some? && MinLength <= |cands[i].value.word| <= MaxLength ==>
              exists r :: r in t && r.word == cands[i].value.word
  {
    var derived := DeriveAll(unique, zipf);
    forall i | 0 <= i < |cands| && cands[i].Some? && MinLength <= |cands[i].value.word| <= MaxLength
      ensures exists r :: r in t && r.word == cands[i].value.word
    {
      assert HasRowFor(unique, cands[i].value.word);
      var k :| 0 <= k < |unique| && unique[k].word == cands[i].value.word;
      assert derived[k] in derived;
      assert derived[k] in t;
    }
  }

  /**
    Lines 76-99 after the per-row filters: de-duplicate, derive, keep
    playable lengths, sort.  `cands[i]` is the filtered form of input row i
    (`None` when the row was dropped).

    When no row survived, the frame that reaches line 91 is empty.  pandas'
    row-wise `apply` then calls the lambda once on a row of NaN,
    `int(r["length"])` raises, pandas falls back to a copy of the whole
    frame, and assigning that frame to the single column `difficulty`
    raises: the program stops with an error, which is `None` here.
   */
  function Rank(cands: seq<Option<Candidate>>, zipf: string -> real): (t: Option<seq<WordRecord>>)
    requires forall i :: 0 <= i < |cands| && cands[i].Some? ==> AllLower(cands[i].value.word)
    ensures t.None? <==> forall i :: 0 <= i < |cands| ==> cands[i].None?
    ensures t.Some? ==> Ranked(t.value)
    ensures t.Some? ==> UniqueWords(t.value)
    ensures t.Some? ==> forall r :: r in t.value ==> WellFormedRow(r, zipf)
    ensures t.Some? ==> forall r :: r in t.value ==>
              exists i :: 0 <= i < |cands| && KeptAt(cands, {}, i) && r == Derive(cands[i].value, zipf(r.word))
    ensures t.Some? ==> forall i :: 0 <= i < |cands| && cands[i].Some? && MinLength <= |cands[i].value.word| <= MaxLength ==>
              exists r :: r in t.value && r.word == cands[i].value.word
  {
    var unique := DropDuplicates(cands);
    if unique == [] then None
    else
      var derived := DeriveAll(unique, zipf);
      var playable := KeepPlayable(derived);
      var t := SortRows(playable);
      PermutationSameMembers(t, playable);
      DeriveAllUnique(unique, zipf);
      RankedRowsSound(cands, zipf, unique, t);
      RankedRowsComplete(cands, zipf, unique, t);
      Some(t)
  }

  /** Input row i is the first row whose present word normalises to `w`. */
  predicate FirstRowFor(rows: seq<RawRow>, i: int, w: string)
    requires 0 <= i < |rows|
  {
    && rows[i].word.Some?
    && Normalize(rows[i].word.value) == w
    && forall j :: 0 <= j < i && rows[j].word.Some? ==> Normalize(rows[j].word.value) != w
  }

  /** Input row i is the first row whose word cell, read as text, normalises to `w`. */
  predicate FirstCellFor(rows: seq<RawRow>, i: int, w: string)
    requires 0 <= i < |rows|
  {
    && Normalize(CellText(rows[i].word)) == w
    && forall j :: 0 <= j < i ==> Normalize(CellText(rows[j].word)) != w
  }

  function PrepareAll(rows: seq<RawRow>): (cands: seq<Option<Candidate>>)
    ensures |cands| == |rows|
    ensures forall i :: 0 <= i < |rows| ==> cands[i] == Prepare(rows[i])
  {
    seq(|rows|, i requires 0 <= i < |rows| => Prepare(rows[i]))
  }

  function PrepareAllAsWritten(rows: seq<RawRow>): (cands: seq<Option<Candidate>>)
    ensures |cands| == |rows|
    ensures forall i :: 0 <= i < |rows| ==> cands[i] == PrepareAsWritten(rows[i])
  {
    seq(|rows|, i requires 0 <= i < |rows| => PrepareAsWritten(rows[i]))
  }

  /** A row kept by de-duplication is the first input row for its word. */
  lemma KeptIsFirstRow(rows: seq<RawRow>, i: int)
    requires 0 <= i < |rows|
    requires KeptAt(PrepareAll(rows), {}, i)
    ensures FirstRowFor(rows, i, PrepareAll(rows)[i].value.word)
  {
    var cands := PrepareAll(rows);
    var w := cands[i].value.word;
    NormalizedMatchIffHasLetter(rows[i].word.value);
    forall j | 0 <= j < i && rows[j].word.Some?
      ensures Normalize(rows[j].word.value) != w
    {
      NormalizedMatchIffHasLetter(rows[j].word.value);
    }
  }

  /** As written, a row kept by de-duplication is the first row whose cell text gives its word. */
  lemma KeptIsFirstCell(rows: seq<RawRow>, i: int)
    requires 0 <= i < |rows|
    requires KeptAt(PrepareAllAsWritten(rows), {}, i)
    ensures FirstCellFor(rows, i, PrepareAllAsWritten(rows)[i].value.word)
  {
    var cands := PrepareAllAsWritten(rows);
    var w := cands[i].value.word;
    NormalizedMatchIffHasLetter(CellText(rows[i].word));
    forall j | 0 <= j < i
      ensures Normalize(CellText(rows[j].word)) != w
    {
      NormalizedMatchIffHasLetter(CellText(rows[j].word));
    }
  }

  lemma PreparedWordsLower(rows: seq<RawRow>)
    ensures forall i :: 0 <= i < |rows| && PrepareAll(rows)[i].Some? ==> AllLower(PrepareAll(rows)[i].value.word)
  {
  }

  lemma PreparedAsWrittenWordsLower(rows: seq<RawRow>)
    ensures forall i :: 0 <= i < |rows| && PrepareAllAsWritten(rows)[i].Some? ==> AllLower(PrepareAllAsWritten(rows)[i].value.word)
  {
  }

  /** Rows kept from the filtered candidates trace back to first input rows. */
  lemma TableRowsFromFirstRows(rows: seq<RawRow>, zipf: string -> real, t: seq<WordRecord>)
    requires forall r :: r in t ==>
               exists i :: 0 <= i < |rows| && KeptAt(PrepareAll(rows), {}, i) && r == Derive(PrepareAll(rows)[i].value, zipf(r.word))
    ensures forall r :: r in t ==>
              exists i :: 0 <= i < |rows| && FirstRowFor(rows, i, r.word) && r.cefrNorm == CefrNorm(rows[i].cefr)
  {
    var cands := PrepareAll(rows);
    forall r | r in t
      ensures exists i :: 0 <= i < |rows| && FirstRowFor(rows, i, r.word) && r.cefrNorm == CefrNorm(rows[i].cefr)
    {
      var i :| 0 <= i < |rows| && KeptAt(cands, {}, i) && r == Derive(cands[i].value, zipf(r.word));
      KeptIsFirstRow(rows, i);
    }
  }

  /** As written, rows kept from the filtered candidates trace back to first cells. */
  lemma TableRowsFromFirstCells(rows: seq<RawRow>, zipf: string -> real, t: seq<WordRecord>)
    requires forall r :: r in t ==>
               exists i :: 0 <= i < |rows| && KeptAt(PrepareAllAsWritten(rows), {}, i) && r == Derive(PrepareAllAsWritten(rows)[i].value, zipf(r.word))
    ensures forall r :: r in t ==>
              exists i :: 0 <= i < |rows| && FirstCellFor(rows, i, r.word) && r.cefrNorm == CefrNorm(rows[i].cefr)
  {
    var cands := PrepareAllAsWritten(rows);
    forall r | r in t
      ensures exists i :: 0 <= i < |rows| && FirstCellFor(rows, i, r.word) && r.cefrNorm == CefrNorm(rows[i].cefr)
    {
      var i :| 0 <= i < |rows| && KeptAt(cands, {}, i) && r == Derive(cands[i].value, zipf(r.word));
      KeptIsFirstCell(rows, i);
    }
  }

  /** Every input word of playable length, once normalised, survives the filters. */
  lemma TableComplete(rows: seq<RawRow>, t: seq<WordRecord>)
    requires forall i :: 0 <= i < |rows| && PrepareAll(rows)[i].Some? && MinLength <= |PrepareAll(rows)[i].value.word| <= MaxLength ==>
               exists r :: r in t && r.word == PrepareAll(rows)[i].value.word
    ensures forall i :: 0 <= i < |rows| && rows[i].word.Some? && MinLength <= |Normalize(rows[i].word.value)| <= MaxLength ==>
              exists r :: r in t && r.word == Normalize(rows[i].word.value)
  {
    forall i | 0 <= i < |rows| && rows[i].word.Some? && MinLength <= |Normalize(rows[i].word.value)| <= MaxLength
      ensures exists r :: r in t && r.word == Normalize(rows[i].word.value)
    {
      NormalizedMatchIffHasLetter(rows[i].word.value);
      assert PrepareAll(rows)[i].Some?;
    }
  }

  /** As written, every cell text of playable length, once normalised, survives the filters. */
  lemma TableCompleteAsWritten(rows: seq<RawRow>, t: seq<WordRecord>)
    requires forall i :: 0 <= i < |rows| && PrepareAllAsWritten(rows)[i].Some? && MinLength <= |PrepareAllAsWritten(rows)[i].value.word| <= MaxLength ==>
               exists r :: r in t && r.word == PrepareAllAsWritten(rows)[i].value.word
    ensures forall i :: 0 <= i < |rows| && MinLength <= |Normalize(CellText(rows[i].word))| <= MaxLength ==>
              exists r :: r in t && r.word == Normalize(CellText(rows[i].word))
  {
    forall i | 0 <= i < |rows| && MinLength <= |Normalize(CellText(rows[i].word))| <= MaxLength
      ensures exists r :: r in t && r.word == Normalize(CellText(rows[i].word))
    {
      NormalizedMatchIffHasLetter(CellText(rows[i].word));
      assert PrepareAllAsWritten(rows)[i].Some?;
    }
  }

  /** No row survives the corrected filters exactly when no present word cell holds an ASCII letter. */
  lemma NothingPrepared(rows: seq<RawRow>)
    ensures (forall i :: 0 <= i < |rows| ==> PrepareAll(rows)[i].None?) <==>
            forall i :: 0 <= i < |rows| ==> !(rows[i].word.Some? && HasLetter(rows[i].word.value))
  {
    var cands := PrepareAll(rows);
    assert forall i :: 0 <= i < |rows| ==> (cands[i].None? <==> !(rows[i].word.Some? && HasLetter(rows[i].word.value)));
  }

  /** As written, no row survives exactly when no cell text holds an ASCII letter. */
  lemma NothingPreparedAsWritten(rows: seq<RawRow>)
    ensures (forall i :: 0 <= i < |rows| ==> PrepareAllAsWritten(rows)[i].None?) <==>
            forall i :: 0 <= i < |rows| ==> !HasLetter(CellText(rows[i].word))
  {
    var cands := PrepareAllAsWritten(rows);
    assert forall i :: 0 <= i < |rows| ==> (cands[i].None? <==> !HasLetter(CellText(rows[i].word)));
  }

  /**
    The ranked table (lines 73-99, with a missing word cell dropped).  The
    program stops with an error (`None`) exactly when no row has a present
    word holding an ASCII letter.  Otherwise the table is sorted by level,
    then difficulty, then descending zipf; no word appears twice; every row
    is well formed and is derived from the first input row carrying its
    word; and every input word of playable length after normalisation is in
    the table.
   */
  function BuildTable(rows: seq<RawRow>, zipf: string -> real): (t: Option<seq<WordRecord>>)
    ensures t.None? <==> forall i :: 0 <= i < |rows| ==> !(rows[i].word.Some? && HasLetter(rows[i].word.value))
    ensures t.Some? ==> Ranked(t.value)
    ensures t.Some? ==> UniqueWords(t.value)
    ensures t.Some? ==> forall r :: r in t.value ==> WellFormedRow(r, zipf)
    ensures t.Some? ==> forall r :: r in t.value ==>
              exists i :: 0 <= i < |rows| && FirstRowFor(rows, i, r.word) && r.cefrNorm == CefrNorm(rows[i].cefr)
    ensures t.Some? ==> forall i :: 0 <= i < |rows| && rows[i].word.Some? && MinLength <= |Normalize(rows[i].word.value)| <= MaxLength ==>
              exists r :: r in t.value && r.word == Normalize(rows[i].word.value)
  {
    PreparedWordsLower(rows);
    NothingPrepared(rows);
    var t := Rank(PrepareAll(rows), zipf);
    match t
    case None => t
    case Some(table) =>
      TableRowsFromFirstRows(rows, zipf, table);
      TableComplete(rows, table);
      t
  }

  /**
    The same pipeline with lines 73-74 as written: missing word cells reach
    the filters as the text "nan".  It stops with an error exactly when no
    cell text holds an ASCII letter; otherwise the table is ranked, free of
    duplicates and well formed, every row comes from the first row whose
    cell text gives its word, and every playable word of the cells' text is
    present.
   */
  function BuildTableAsWritten(rows: seq<RawRow>, zipf: string -> real): (t: Option<seq<WordRecord>>)
    ensures t.None? <==> forall i :: 0 <= i < |rows| ==> !HasLetter(CellText(rows[i].word))
    ensures t.Some? ==> Ranked(t.value)
    ensures t.Some? ==> UniqueWords(t.value)
    ensures t.Some? ==> forall r :: r in t.value ==> WellFormedRow(r, zipf)
    ensures t.Some? ==> forall r :: r in t.value ==>
              exists i :: 0 <= i < |rows| && FirstCellFor(rows, i, r.word) && r.cefrNorm == CefrNorm(rows[i].cefr)
    ensures t.Some? ==> forall i :: 0 <= i < |rows| && MinLength <= |Normalize(CellText(rows[i].word))| <= MaxLength ==>
              exists r :: r in t.value && r.word == Normalize(CellText(rows[i].word))
  {
    PreparedAsWrittenWordsLower(rows);
    NothingPreparedAsWritten(rows);
    var t := Rank(PrepareAllAsWritten(rows), zipf);
    match t
    case None => t
    case Some(table) =>
      TableRowsFromFirstCells(rows, zipf, table);
      TableCompleteAsWritten(rows, table);
      t
  }

  lemma NormalizeNan()
    ensures Normalize("nan") == "nan"
    ensures HasLetter("nan")
  {
    assert LowerLetters("nan") == "nan" by {
      assert "nan"[1..] == "an";
      assert "an"[1..] == "n";
      assert "n"[1..] == "";
    }
    assert IsLetter("nan"[0]);
  }

  /** A word of letters `a`..`z` only is its own normalisation, and holds a letter when non-empty. */
  lemma NormalizeLowerWord(w: string)
    requires AllLower(w) && |w| > 0
    ensures Normalize(w) == w
    ensures HasLetter(w)
  {
    LowerLettersOfLowerWord(w);
    assert IsLetter(w[0]);
  }

  /** As written, a row with a missing word cell puts "nan" into the table. */
  lemma MissingCellGivesNan(rows: seq<RawRow>, k: int, zipf: string -> real)
    requires 0 <= k < |rows| && rows[k].word.None?
    ensures BuildTableAsWritten(rows, zipf).Some?
    ensures exists r :: r in BuildTableAsWritten(rows, zipf).value && r.word == "nan"
  {
    NormalizeNan();
    assert CellText(rows[k].word) == "nan";
    var t := BuildTableAsWritten(rows, zipf);
    assert HasLetter(CellText(rows[k].word));
    assert MinLength <= |Normalize(CellText(rows[k].word))| <= MaxLength;
    assert exists r :: r in t.value && r.word == Normalize(CellText(rows[k].word));
  }

  /**
    With missing cells dropped, every word of the table is what some present
    word cell normalises to: the table invents no word.
   */
  lemma PresentWordsOnly(rows: seq<RawRow>, zipf: string -> real)
    ensures BuildTable(rows, zipf).Some? ==> forall r :: r in BuildTable(rows, zipf).value ==>
              exists i :: 0 <= i < |rows| && rows[i].word.Some? && Normalize(rows[i].word.value) == r.word
  {
  }

  /**
    When the only word present in any cell is the playable word `w` (and it
    is present at row k), the table is exactly about `w`: missing cells
    contribute nothing.
   */
  lemma OneWordTable(rows: seq<RawRow>, k: int, w: string, zipf: string -> real)
    requires 0 <= k < |rows| && rows[k].word == Some(w)
    requires AllLower(w) && MinLength <= |w| <= MaxLength
    requires forall i :: 0 <= i < |rows| && rows[i].word.Some? ==> rows[i].word.value == w
    ensures BuildTable(rows, zipf).Some?
    ensures forall r :: r in BuildTable(rows, zipf).value ==> r.word == w
    ensures exists r :: r in BuildTable(rows, zipf).value && r.word == w
  {
    NormalizeLowerWord(w);
    var t := BuildTable(rows, zipf);
    assert rows[k].word.Some? && HasLetter(rows[k].word.value);
    PresentWordsOnly(rows, zipf);
    forall r | r in t.value
      ensures r.word == w
    {
      var i :| 0 <= i < |rows| && rows[i].word.Some? && Normalize(rows[i].word.value) == r.word;
    }
    assert MinLength <= |Normalize(rows[k].word.value)| <= MaxLength;
    assert exists r :: r in t.value && r.word == Normalize(rows[k].word.value);
  }

  /**
    A missing word cell followed by a playable word `w`: as written the
    missing cell survives the filters as the word "nan", and the table
    built from the two rows contains "nan".
   */
  lemma MissingWordBecomesNan(cefr: Option<string>, w: string, cefr2: Option<string>, zipf: string -> real)
    requires AllLower(w) && MinLength <= |w| <= MaxLength
    ensures PrepareAsWritten(RawRow(None, cefr)) == Some(Candidate("nan", cefr))
    ensures Prepare(RawRow(None, cefr)) == None
    ensures var t := BuildTableAsWritten([RawRow(None, cefr), RawRow(Some(w), cefr2)], zipf);
            t.Some? && exists r :: r in t.value && r.word == "nan"
  {
    NormalizeNan();
    MissingCellGivesNan([RawRow(None, cefr), RawRow(Some(w), cefr2)], 0, zipf);
  }

  /**
    With the missing cell dropped, the same two rows give a table whose only
    word is `w`: "nan" is in it only if `w` is "nan".
   */
  lemma MissingWordDropped(cefr: Option<string>, w: string, cefr2: Option<string>, zipf: string -> real)
    requires AllLower(w) && MinLength <= |w| <= MaxLength
    ensures var t := BuildTable([RawRow(None, cefr), RawRow(Some(w), cefr2)], zipf);
            t.Some? && (forall r :: r in t.value ==> r.word == w) && exists r :: r in t.value && r.word == w
  {
    var rows := [RawRow(None, cefr), RawRow(Some(w), cefr2)];
    OneWordTable(rows, 1, w, zipf);
  }

  /** Even with the missing cell dropped, a table of missing cells alone stops with the error of line 91. */
  lemma OnlyMissingWordsStops(cefr: Option<string>, zipf: string -> real)
    ensures BuildTable([RawRow(None, cefr)], zipf) == None
  {
    var rows := [RawRow(None, cefr)];
    assert forall i :: 0 <= i < |rows| ==> rows[i].word.None?;
  }
}

=== FILE: dedupe.dfy ===
/**
  The batch job's "first occurrence wins" de-duplication
  (`drop_duplicates(subset=["word"], keep="first")`).
 */
module Dedupe {
  import opened Options
  import opened Records

  /**
    Position i holds the row de-duplication keeps: a row survived the
    filters there, its word is not in `seen`, and no earlier surviving row
    has the same word.
   */
  predicate KeptAt(cands: seq<Option<Candidate>>, seen: set<string>, i: int)
    requires 0 <= i < |cands|
  {
    && cands[i].Some?
    && cands[i].value.word !in seen
    && forall j :: 0 <= j < i && cands[j].Some? ==> cands[j].value.word != cands[i].value.word
  }

  /** `c` is the row kept at some position of `cands`. */
  predicate KeptSomewhere(cands: seq<Option<Candidate>>, seen: set<string>, c: Candidate) {
    exists i :: 0 <= i < |cands| && KeptAt(cands, seen, i) && cands[i].value == c
  }

  /** Every row of `r` is the row kept at some position of `cands`. */
  predicate Sound(cands: seq<Option<Candidate>>, seen: set<string>, r: seq<Candidate>) {
    forall k :: 0 <= k < |r| ==> KeptSomewhere(cands, seen, r[k])
  }

  predicate HasRowFor(r: seq<Candidate>, w: string) {
    exists k :: 0 <= k < |r| && r[k].word == w
  }

  /** Every surviving word of `cands` outside `seen` has a row in `r`. */
  predicate Complete(cands: seq<Option<Candidate>>, seen: set<string>, r: seq<Candidate>) {
    forall i :: 0 <= i < |cands| && cands[i].Some? && cands[i].value.word !in seen ==>
      HasRowFor(r, cands[i].value.word)
  }

  /** `a` is kept at an earlier position of `cands` than `b`. */
  predicate KeptBefore(cands: seq<Option<Candidate>>, seen: set<string>, a: Candidate, b: Candidate) {
    exists i, j :: 0 <= i < j < |cands| && KeptAt(cands, seen, i) && cands[i].value == a && KeptAt(cands, seen, j) && cands[j].value == b
  }

  /** The rows of `r` appear in the order of the positions where they were kept. */
  predicate InInputOrder(cands: seq<Option<Candidate>>, seen: set<string>, r: seq<Candidate>) {
    forall k1, k2 :: 0 <= k1 < k2 < |r| ==> KeptBefore(cands, seen, r[k1], r[k2])
  }

  lemma OrderSkip(cands: seq<Option<Candidate>>, seen: set<string>, r: seq<Candidate>)
    requires |cands| > 0 && !(cands[0].Some? && cands[0].value.word !in seen)
    requires InInputOrder(cands[1..], seen, r)
    ensures InInputOrder(cands, seen, r)
  {
    var rest := cands[1..];
    forall k1, k2 | 0 <= k1 < k2 < |r|
      ensures KeptBefore(cands, seen, r[k1], r[k2])
    {
      assert KeptBefore(rest, seen, r[k1], r[k2]);
      var i, j :| 0 <= i < j < |rest| && KeptAt(rest, seen, i) && rest[i].value == r[k1] && KeptAt(rest, seen, j) && rest[j].value == r[k2];
      assert KeptAt(cands, seen, i + 1) && KeptAt(cands, seen, j + 1);
    }
  }

  lemma OrderTake(cands: seq<Option<Candidate>>, seen: set<string>, tail: seq<Candidate>)
    requires |cands| > 0 && cands[0].Some? && cands[0].value.word !in seen
    requires Sound(cands[1..], seen + {cands[0].value.word}, tail)
    requires InInputOrder(cands[1..], seen + {cands[0].value.word}, tail)
    ensures InInputOrder(cands, seen, [cands[0].value] + tail)
  {
    var c := cands[0].value;
    var seen' := seen + {c.word};
    var rest := cands[1..];
    var r := [c] + tail;
    assert KeptAt(cands, seen, 0);
    forall k1, k2 | 0 <= k1 < k2 < |r|
      ensures KeptBefore(cands, seen, r[k1], r[k2])
    {
      assert r[k2] == tail[k2 - 1];
      if k1 == 0 {
        assert KeptSomewhere(rest, seen', tail[k2 - 1]);
        var j :| 0 <= j < |rest| && KeptAt(rest, seen', j) && rest[j].value == tail[k2 - 1];
        assert KeptAt(cands, seen, j + 1);
      } else {
        assert r[k1] == tail[k1 - 1];
        assert KeptBefore(rest, seen', tail[k1 - 1], tail[k2 - 1]);
        var i, j :| 0 <= i < j < |rest| && KeptAt(rest, seen', i) && rest[i].value == tail[k1 - 1] && KeptAt(rest, seen', j) && rest[j].value == tail[k2 - 1];
        assert KeptAt(cands, seen, i + 1) && KeptAt(cands, seen, j + 1);
      }
    }
  }

  lemma SoundSkip(cands: seq<Option<Candidate>>, seen: set<string>, r: seq<Candidate>)
    requires |cands| > 0 && !(cands[0].Some? && cands[0].value.word !in seen)
    requires Sound(cands[1..], seen, r)
    ensures Sound(cands, seen, r)
  {
    forall k | 0 <= k < |r|
      ensures KeptSomewhere(cands, seen, r[k])
    {
      var rest := cands[1..];
      assert KeptSomewhere(rest, seen, r[k]);
      var i :| 0 <= i < |rest| && KeptAt(rest, seen, i) && rest[i].value == r[k];
      assert KeptAt(cands, seen, i + 1);
    }
  }

  lemma SoundTake(cands: seq<Option<Candidate>>, seen: set<string>, tail: seq<Candidate>)
    requires |cands| > 0 && cands[0].Some? && cands[0].value.word !in seen
    requires Sound(cands[1..], seen + {cands[0].value.word}, tail)
    ensures Sound(cands, seen, [cands[0].value] + tail)
  {
    var c := cands[0].value;
    var r := [c] + tail;
    assert KeptAt(cands, seen, 0);
    forall k | 0 <= k < |r|
      ensures KeptSomewhere(cands, seen, r[k])
    {
      if k > 0 {
        var rest := cands[1..];
        assert KeptSomewhere(rest, seen + {c.word}, tail[k - 1]);
        var i :| 0 <= i < |rest| && KeptAt(rest, seen + {c.word}, i) && rest[i].value == tail[k - 1];
        assert KeptAt(cands, seen, i + 1);
      }
    }
  }

  lemma CompleteSkip(cands: seq<Option<Candidate>>, seen: set<string>, r: seq<Candidate>)
    requires |cands| > 0 && !(cands[0].Some? && cands[0].value.word !in seen)
    requires Complete(cands[1..], seen, r)
    ensures Complete(cands, seen, r)
  {
    forall i | 0 <= i < |cands| && cands[i].Some? && cands[i].value.word !in seen
      ensures HasRowFor(r, cands[i].value.word)
    {
      assert cands[1..][i - 1] == cands[i];
    }
  }

  lemma CompleteTake(cands: seq<Option<Candidate>>, seen: set<string>, tail: seq<Candidate>)
    requires |cands| > 0 && cands[0].Some? && cands[0].value.word !in seen
    requires Complete(cands[1..], seen + {cands[0].value.word}, tail)
    ensures Complete(cands, seen, [cands[0].value] + tail)
  {
    var c := cands[0].value;
    var r := [c] + tail;
    forall i | 0 <= i < |cands| && cands[i].Some? && cands[i].value.word !in seen
      ensures HasRowFor(r, cands[i].value.word)
    {
      if cands[i].value.word == c.word {
        assert r[0].word == c.word;
      } else {
        assert cands[1..][i - 1] == cands[i];
        assert HasRowFor(tail, cands[i].value.word);
        var k :| 0 <= k < |tail| && tail[k].word == cands[i].value.word;
        assert r[k + 1] == tail[k];
      }
    }
  }

  /**
    De-duplication scanning left to right, `seen` holding the words already
    taken.  Dropped rows (`None`) are skipped.  The result has no repeated
    word and none from `seen`; each of its rows is the first surviving row
    for its word; and every surviving word not in `seen` is represented.
   */
  function DedupeFrom(cands: seq<Option<Candidate>>, seen: set<string>): (r: seq<Candidate>)
    ensures DistinctWords(r)
    ensures forall k :: 0 <= k < |r| ==> r[k].word !in seen
    ensures Sound(cands, seen, r)
    ensures Complete(cands, seen, r)
    ensures InInputOrder(cands, seen, r)
    decreases |cands|
  {
    if |cands| == 0 then []
    else if cands[0].Some? && cands[0].value.word !in seen then
      var c := cands[0].value;
      var tail := DedupeFrom(cands[1..], seen + {c.word});
      SoundTake(cands, seen, tail);
      CompleteTake(cands, seen, tail);
      OrderTake(cands, seen, tail);
      var r := [c] + tail;
      assert forall k :: 1 <= k < |r| ==> r[k] == tail[k - 1];
      r
    else
      var r := DedupeFrom(cands[1..], seen);
      SoundSkip(cands, seen, r);
      CompleteSkip(cands, seen, r);
      OrderSkip(cands, seen, r);
      r
  }

  /**
    `drop_duplicates(subset=["word"], keep="first")` over the surviving rows:
    distinct words, each row the first surviving row for its word, every
    surviving word present, input order kept, and empty exactly when no row
    survived.
   */
  function DropDuplicates(cands: seq<Option<Candidate>>): (r: seq<Candidate>)
    ensures DistinctWords(r)
    ensures Sound(cands, {}, r)
    ensures Complete(cands, {}, r)
    ensures InInputOrder(cands, {}, r)
    ensures r == [] <==> forall i :: 0 <= i < |cands| ==> cands[i].None?
  {
    var r := DedupeFrom(cands, {});
    assert r != [] ==> KeptSomewhere(cands, {}, r[0]);
    r
  }
}

=== FILE: options.dfy ===
/** The small option type used for Python's None and for pandas' NaN. */
module Options {

  datatype Option<T> = None | Some(value: T)
}

=== FILE: ranking.dfy ===
/**
  The final ordering of the table:
  `sort_values(["level", "difficulty", "zipf"], ascending=[True, True, False])`.
  A sort on several keys is stable in pandas (it goes through a
  lexicographic, stable index sort), so rows with equal keys keep their
  order; the insertion sort here is proved to do the same.
 */
module Ranking {
  import opened Records

  /** `a` may precede `b`: lower level, then lower difficulty, then higher zipf. */
  predicate RankLe(a: WordRecord, b: WordRecord) {
    || a.level < b.level
    || (a.level == b.level && a.difficulty < b.difficulty)
    || (a.level == b.level && a.difficulty == b.difficulty && a.zipf >= b.zipf)
  }

  predicate Ranked(s: seq<WordRecord>) {
    forall i, j :: 0 <= i < j < |s| ==> RankLe(s[i], s[j])
  }

  /** The sort key order is a total preorder, so a ranked arrangement always exists. */
  lemma RankLeTotalPreorder(a: WordRecord, b: WordRecord, c: WordRecord)
    ensures RankLe(a, a)
    ensures RankLe(a, b) || RankLe(b, a)
    ensures RankLe(a, b) && RankLe(b, c) ==> RankLe(a, c)
  {
  }

  lemma RankedCons(y: WordRecord, t: seq<WordRecord>)
    requires Ranked(t)
    requires forall k :: 0 <= k < |t| ==> RankLe(y, t[k])
    ensures Ranked([y] + t)
  {
    var r := [y] + t;
    forall i, j | 0 <= i < j < |r|
      ensures RankLe(r[i], r[j])
    {
      if i > 0 {
        assert r[i] == t[i - 1] && r[j] == t[j - 1];
      } else {
        assert r[j] == t[j - 1];
      }
    }
  }

  lemma UniqueCons(y: WordRecord, t: seq<WordRecord>)
    requires UniqueWords(t)
    requires forall k :: 0 <= k < |t| ==> t[k].word != y.word
    ensures UniqueWords([y] + t)
  {
    var r := [y] + t;
    forall i, j | 0 <= i < j < |r|
      ensures r[i].word != r[j].word
    {
      assert r[j] == t[j - 1];
      if i > 0 {
        assert r[i] == t[i - 1];
      }
    }
  }

  /** A permutation has the same members. */
  lemma PermutationSameMembers(a: seq<WordRecord>, b: seq<WordRecord>)
    requires multiset(a) == multiset(b)
    ensures forall r :: r in a <==> r in b
  {
    forall r
      ensures r in a <==> r in b
    {
      assert r in a <==> r in multiset(a);
      assert r in b <==> r in multiset(b);
    }
  }

  /** Inserting in front of a ranked sequence whose head `x` does not outrank. */
  lemma InsertFront(x: WordRecord, s: seq<WordRecord>)
    requires Ranked(s)
    requires |s| > 0 && RankLe(x, s[0])
    ensures Ranked([x] + s)
    ensures UniqueWords(s) && (forall k :: 0 <= k < |s| ==> s[k].word != x.word) ==> UniqueWords([x] + s)
  {
    forall k | 0 <= k < |s|
      ensures RankLe(x, s[k])
    {
      if k > 0 {
        assert RankLe(s[0], s[k]);
        RankLeTotalPreorder(x, s[0], s[k]);
      }
    }
    RankedCons(x, s);
    if UniqueWords(s) && (forall k :: 0 <= k < |s| ==> s[k].word != x.word) {
      UniqueCons(x, s);
    }
  }

  /** Keeping the head of `s` in front of `x` inserted into the rest of `s`. */
  lemma InsertBehind(x: WordRecord, s: seq<WordRecord>, tail: seq<WordRecord>)
    requires Ranked(s) && Ranked(tail)
    requires |s| > 0 && !RankLe(x, s[0])
    requires multiset(tail) == multiset(s[1..]) + multiset{x}
    requires UniqueWords(s) && (forall k :: 0 <= k < |s| ==> s[k].word != x.word) ==> UniqueWords(tail)
    ensures Ranked([s[0]] + tail)
    ensures multiset([s[0]] + tail) == multiset(s) + multiset{x}
    ensures UniqueWords(s) && (forall k :: 0 <= k < |s| ==> s[k].word != x.word) ==> UniqueWords([s[0]] + tail)
  {
    var rest := s[1..];
    assert s == [s[0]] + rest;
    assert multiset(tail) == multiset(rest + [x]);
    forall k | 0 <= k < |tail|
      ensures RankLe(s[0], tail[k]) && (tail[k] == x || exists m :: 0 <= m < |rest| && rest[m] == tail[k])
    {
      PermutationSameMembers(tail, rest + [x]);
      assert tail[k] in rest + [x];
      var m :| 0 <= m < |rest| + 1 && (rest + [x])[m] == tail[k];
      if m < |rest| {
        assert tail[k] == s[m + 1];
      } else {
        RankLeTotalPreorder(x, s[0], s[0]);
      }
    }
    RankedCons(s[0], tail);
    if UniqueWords(s) && (forall k :: 0 <= k < |s| ==> s[k].word != x.word) {
      forall k | 0 <= k < |tail|
        ensures tail[k].word != s[0].word
      {
        if tail[k] != x {
          var m :| 0 <= m < |rest| && rest[m] == tail[k];
          assert rest[m] == s[m + 1];
        }
      }
      UniqueCons(s[0], tail);
    }
  }

  lemma RankedTail(s: seq<WordRecord>)
    requires Ranked(s) && |s| > 0
    ensures Ranked(s[1..])
  {
    var rest := s[1..];
    forall i, j | 0 <= i < j < |rest|
      ensures RankLe(rest[i], rest[j])
    {
      assert rest[i] == s[i + 1] && rest[j] == s[j + 1];
    }
  }

  /** All three sort keys of `a` and `b` agree. */
  predicate SameKey(a: WordRecord, b: WordRecord) {
    a.level == b.level && a.difficulty == b.difficulty && a.zipf == b.zipf
  }

  /** The rows of `s` whose sort keys equal those of `x`, in their order in `s`. */
  function Ties(s: seq<WordRecord>, x: WordRecord): seq<WordRecord> {
    if |s| == 0 then []
    else (if SameKey(s[0], x) then [s[0]] else []) + Ties(s[1..], x)
  }

  lemma TiesCons(y: WordRecord, s: seq<WordRecord>, x: WordRecord)
    ensures Ties([y] + s, x) == (if SameKey(y, x) then [y] else []) + Ties(s, x)
  {
    assert ([y] + s)[0] == y;
    assert ([y] + s)[1..] == s;
  }

  /** Rows with the same keys as `x` may precede one another either way, so a row that may not precede `b` does not tie with it. */
  lemma NotRankLeNotTied(a: WordRecord, b: WordRecord, x: WordRecord)
    requires !RankLe(a, b)
    ensures !(SameKey(a, x) && SameKey(b, x))
  {
  }

  lemma SwapEmpty(p: seq<WordRecord>, q: seq<WordRecord>, r: seq<WordRecord>)
    requires p == [] || q == []
    ensures p + (q + r) == q + (p + r)
  {
    if p == [] {
      assert p + (q + r) == q + r;
    } else {
      assert q + (p + r) == p + r;
    }
  }

  /** `Insert` puts a row in front of every row it ties with. */
  lemma {:induction false} InsertTies(y: WordRecord, s: seq<WordRecord>, x: WordRecord)
    requires Ranked(s)
    ensures Ties(Insert(y, s), x) == (if SameKey(y, x) then [y] else []) + Ties(s, x)
  {
    if |s| == 0 || RankLe(y, s[0]) {
      assert Insert(y, s) == [y] + s;
      TiesCons(y, s, x);
    } else {
      var rest := s[1..];
      RankedTail(s);
      var tail := Insert(y, rest);
      assert Insert(y, s) == [s[0]] + tail;
      var h0 := if SameKey(s[0], x) then [s[0]] else [];
      var hy := if SameKey(y, x) then [y] else [];
      TiesCons(s[0], tail, x);
      assert s == [s[0]] + rest;
      TiesCons(s[0], rest, x);
      InsertTies(y, rest, x);
      NotRankLeNotTied(y, s[0], x);
      SwapEmpty(h0, hy, Ties(rest, x));
    }
  }

  /** Places `x` into a ranked sequence, keeping it ranked and losing nothing. */
  function Insert(x: WordRecord, s: seq<WordRecord>): (r: seq<WordRecord>)
    requires Ranked(s)
    ensures Ranked(r)
    ensures multiset(r) == multiset(s) + multiset{x}
    ensures UniqueWords(s) && (forall k :: 0 <= k < |s| ==> s[k].word != x.word) ==> UniqueWords(r)
  {
    if |s| == 0 then [x]
    else if RankLe(x, s[0]) then
      InsertFront(x, s);
      [x] + s
    else
      var tail := Insert(x, s[1..]);
      InsertBehind(x, s, tail);
      [s[0]] + tail
  }

  /** With distinct words, no row of a permutation of `s[1..]` carries the word of `s[0]`. */
  lemma HeadNotInPermutedRest(s: seq<WordRecord>, sorted: seq<WordRecord>)
    requires |s| > 0 && multiset(sorted) == multiset(s[1..])
    ensures UniqueWords(s) ==> UniqueWords(s[1..])
    ensures UniqueWords(s) ==> forall k :: 0 <= k < |sorted| ==> sorted[k].word != s[0].word
  {
    var rest := s[1..];
    if UniqueWords(s) {
      forall i, j | 0 <= i < j < |rest|
        ensures rest[i].word != rest[j].word
      {
        assert rest[i] == s[i + 1] && rest[j] == s[j + 1];
      }
      forall k | 0 <= k < |sorted|
        ensures sorted[k].word != s[0].word
      {
        PermutationSameMembers(sorted, rest);
        assert sorted[k] in rest;
        var m :| 0 <= m < |rest| && rest[m] == sorted[k];
        assert rest[m] == s[m + 1];
      }
    }
  }

  /** Inserting the head of `s` into a sorted permutation of the rest sorts `s`. */
  lemma SortStep(s: seq<WordRecord>, sorted: seq<WordRecord>)
    requires |s| > 0 && Ranked(sorted) && multiset(sorted) == multiset(s[1..])
    requires UniqueWords(s[1..]) ==> UniqueWords(sorted)
    ensures Ranked(Insert(s[0], sorted))
    ensures multiset(Insert(s[0], sorted)) == multiset(s)
    ensures UniqueWords(s) ==> UniqueWords(Insert(s[0], sorted))
  {
    HeadNotInPermutedRest(s, sorted);
    assert multiset(s) == multiset(s[1..]) + multiset{s[0]} by {
      assert s == [s[0]] + s[1..];
    }
  }

  /** The table sorted by the ranking keys: ranked, and a permutation of its input. */
  function SortRows(s: seq<WordRecord>): (r: seq<WordRecord>)
    ensures Ranked(r)
    ensures multiset(r) == multiset(s)
    ensures UniqueWords(s) ==> UniqueWords(r)
  {
    if |s| == 0 then []
    else
      var rest := s[1..];
      var sorted := SortRows(rest);
      SortStep(s, sorted);
      Insert(s[0], sorted)
  }

  /** Sorting is stable: the rows tying with `x` come out in their input order. */
  lemma {:induction false} SortRowsStable(s: seq<WordRecord>, x: WordRecord)
    ensures Ties(SortRows(s), x) == Ties(s, x)
  {
    if |s| > 0 {
      SortRowsStable(s[1..], x);
      InsertTies(s[0], SortRows(s[1..]), x);
    }
  }
}

=== FILE: records.dfy ===
/** The row shapes of the batch job, from raw input row to output table row. */
module Records {
  import opened Options

  /** One input row: the `word` and `cefr` cells, either of which may be missing. */
  datatype RawRow = RawRow(word: Option<string>, cefr: Option<string>)

  /** A row that survived normalisation and the `WORD_RE` filter. */
  datatype Candidate = Candidate(word: string, cefr: Option<string>)

  /** One row of the ranked output table. */
  datatype WordRecord = WordRecord(
    word: string,
    zipf: real,
    cefrNorm: string,
    isEasy: bool,
    length: int,
    difficulty: real,
    level: int
  )

  /** No word occurs twice among the candidates (the de-duplicated stage). */
  predicate DistinctWords(cs: seq<Candidate>) {
    forall i, j :: 0 <= i < j < |cs| ==> cs[i].word != cs[j].word
  }

  /** No word occurs twice among the output rows (the ranked stage). */
  predicate UniqueWords(rs: seq<WordRecord>) {
    forall i, j :: 0 <= i < j < |rs| ==> rs[i].word != rs[j].word
  }
}

=== FILE: scoring.dfy ===
/**
  The difficulty heuristic (`compute_difficulty`) and the level buckets
  (`assign_level`) of build_words.py.  Floating-point values are modelled
  as exact reals; Python's `round` is spelled out as round-half-to-even.
 */
module Scoring {
  import opened Options

  function Max(a: real, b: real): real {
    if a >= b then a else b
  }

  function Min(a: real, b: real): real {
    if a <= b then a else b
  }

  /**
    Python's `round(x)` on a float: the nearest integer, and on a tie the
    even one of the two neighbours.
   */
  function RoundHalfEven(x: real): (n: int)
    ensures n as real - 0.5 <= x <= n as real + 0.5
    ensures (x == n as real - 0.5 || x == n as real + 0.5) ==> n % 2 == 0
  {
    var f := x.Floor;
    var frac := x - f as real;
    if frac < 0.5 then f
    else if frac > 0.5 then f + 1
    else if f % 2 == 0 then f
    else f + 1
  }

  /** The two properties above pin the rounded value down: no other integer has them. */
  lemma RoundHalfEvenUnique(x: real, m: int)
    requires m as real - 0.5 <= x <= m as real + 0.5
    requires (x == m as real - 0.5 || x == m as real + 0.5) ==> m % 2 == 0
    ensures m == RoundHalfEven(x)
  {
    var n := RoundHalfEven(x);
    if m != n {
      assert false;
    }
  }

  lemma RoundHalfEvenMonotone(x: real, y: real)
    requires x <= y
    ensures RoundHalfEven(x) <= RoundHalfEven(y)
  {
    if x < y {
      assert RoundHalfEven(x) as real - 0.5 < RoundHalfEven(y) as real + 0.5;
    }
  }

  /** The CEFR term's input: tier 1 counts as much as an undefined tier. */
  function TierRank(tier: Option<int>): int {
    match tier
    case None => 1
    case Some(t) => t
  }

  /** `max(0.0, 7.0 - zipf)`: 0 for very common words, growing as words get rarer. */
  function Rarity(zipf: real): (r: real)
    ensures r >= 0.0
    ensures zipf >= 7.0 <==> r == 0.0
  {
    Max(0.0, 7.0 - zipf)
  }

  /**
    `compute_difficulty(zipf, cefr_num, length)`: 1.2 per point of rarity,
    0.9 per CEFR tier above A1 (nothing for an undefined tier) and 0.35 per
    letter beyond three.  It is never negative for a tier of at least 1 or
    an undefined tier, and it is zero exactly for a word that is very common
    (zipf at least 7), basic (tier A1 or undefined) and at most three
    letters long.
   */
  function ComputeDifficulty(zipf: real, tier: Option<int>, length: int): (d: real)
    ensures TierRank(tier) >= 1 ==> d >= 0.0
    ensures TierRank(tier) >= 1 ==> (d == 0.0 <==> zipf >= 7.0 && TierRank(tier) == 1 && length <= 3)
  {
    var cefrComponent := match tier case None => 0.0 case Some(t) => t as real - 1.0;
    var lengthComponent := Max(0.0, (length - 3) as real) * 0.35;
    Rarity(zipf) * 1.2 + cefrComponent * 0.9 + lengthComponent
  }

  /**
    Difficulty never drops when the word gets rarer (lower zipf), its tier
    rises, or it gets longer.
   */
  lemma DifficultyMonotone(zipf1: real, tier1: Option<int>, length1: int, zipf2: real, tier2: Option<int>, length2: int)
    requires zipf2 <= zipf1
    requires TierRank(tier1) <= TierRank(tier2)
    requires length1 <= length2
    ensures ComputeDifficulty(zipf1, tier1, length1) <= ComputeDifficulty(zipf2, tier2, length2)
  {
  }

  /** An undefined tier scores as tier 1 (A1), and words of up to three letters as three. */
  lemma DifficultyBaselines(zipf: real, tier: Option<int>, length: int)
    ensures ComputeDifficulty(zipf, None, length) == ComputeDifficulty(zipf, Some(1), length)
    ensures length <= 3 ==> ComputeDifficulty(zipf, tier, length) == ComputeDifficulty(zipf, tier, 3)
  {
  }

  /** `max(0.0, min(20.0, d))` */
  function Clamp(d: real): (c: real)
    ensures 0.0 <= c <= 20.0
    ensures 0.0 <= d <= 20.0 ==> c == d
    ensures d <= 0.0 ==> c == 0.0
    ensures d >= 20.0 ==> c == 20.0
  {
    Max(0.0, Min(20.0, d))
  }

  /**
    `assign_level(d)`: the clamped difficulty rescaled from [0,20] to
    [0,49], rounded, plus one.  Levels run from 1 to 50, everything at or
    below 0 is level 1, everything at or above 20 is level 50, and inside
    the range the level is within half a step of the exact rescaled value.
   */
  function AssignLevel(d: real): (level: int)
    ensures 1 <= level <= 50
    ensures d <= 0.0 ==> level == 1
    ensures d >= 20.0 ==> level == 50
    ensures 0.0 <= d <= 20.0 ==>
              (level - 1) as real - 0.5 <= d / 20.0 * 49.0 <= (level - 1) as real + 0.5
  {
    var c := Clamp(d);
    var scaled := c / 20.0 * 49.0;
    var n := RoundHalfEven(scaled);
    assert 0 <= n <= 49;
    assert d <= 0.0 ==> n == 0 by {
      if d <= 0.0 {
        RoundHalfEvenUnique(scaled, 0);
      }
    }
    assert d >= 20.0 ==> n == 49 by {
      if d >= 20.0 {
        RoundHalfEvenUnique(scaled, 49);
      }
    }
    1 + n
  }

  /** A harder word never lands on an easier level. */
  lemma AssignLevelMonotone(d1: real, d2: real)
    requires d1 <= d2
    ensures AssignLevel(d1) <= AssignLevel(d2)
  {
    var c1, c2 := Clamp(d1), Clamp(d2);
    assert c1 <= c2;
    assert c1 / 20.0 * 49.0 <= c2 / 20.0 * 49.0;
    RoundHalfEvenMonotone(c1 / 20.0 * 49.0, c2 / 20.0 * 49.0);
  }

  /**
    With a frequency oracle that never answers below 0, a defined or
    undefined tier of at most 6 and the pipeline's lengths of at most 9,
    difficulty stays at or below 15, so no word reaches a level above 38.
   */
  lemma LevelCeiling(zipf: real, tier: Option<int>, length: int)
    requires zipf >= 0.0
    requires TierRank(tier) <= 6
    requires length <= 9
    ensures ComputeDifficulty(zipf, tier, length) <= 15.0
    ensures AssignLevel(ComputeDifficulty(zipf, tier, length)) <= 38
  {
    var d := ComputeDifficulty(zipf, tier, length);
    DifficultyMonotone(zipf, tier, length, 0.0, Some(6), 9);
    assert ComputeDifficulty(0.0, Some(6), 9) == 15.0;
    AssignLevelMonotone(d, 15.0);
    RoundHalfEvenUnique(15.0 / 20.0 * 49.0, 37);
  }
}

=== FILE: text.dfy ===
/**
  Character classes and the string primitives build_words.py borrows from
  Python's `str`: `lower()`, `upper()` and `strip()`.  Case mapping is the
  ASCII one; `strip()` removes exactly the characters Python's
  `str.isspace()` accepts.
 */
module Text {

  /** The regular-expression class `[a-z]`. */
  predicate IsLower(c: char) {
    'a' <= c <= 'z'
  }

  predicate IsUpper(c: char) {
    'A' <= c <= 'Z'
  }

  predicate IsLetter(c: char) {
    IsLower(c) || IsUpper(c)
  }

  /** Python's `str.isspace()` on one character. */
  predicate IsSpace(c: char) {
    || ('\t' <= c <= '\r')
    || ('\U{1C}' <= c <= ' ')
    || c == '\U{85}'
    || c == '\U{A0}'
    || c == '\U{1680}'
    || ('\U{2000}' <= c <= '\U{200A}')
    || c == '\U{2028}'
    || c == '\U{2029}'
    || c == '\U{202F}'
    || c == '\U{205F}'
    || c == '\U{3000}'
  }

  predicate AllLower(s: string) {
    forall i :: 0 <= i < |s| ==> IsLower(s[i])
  }

  predicate NoLower(s: string) {
    forall i :: 0 <= i < |s| ==> !IsLower(s[i])
  }

  predicate AllSpace(s: string) {
    forall i :: 0 <= i < |s| ==> IsSpace(s[i])
  }

  function ToLower(c: char): (r: char)
    ensures IsLower(r) <==> IsLetter(c)
    ensures IsSpace(r) <==> IsSpace(c)
    ensures IsLower(c) ==> r == c
  {
    if IsUpper(c) then (c as int + 32) as char else c
  }

  function ToUpper(c: char): (r: char)
    ensures !IsLower(r)
    ensures IsUpper(r) <==> IsLetter(c)
    ensures IsSpace(r) <==> IsSpace(c)
    ensures !IsLower(c) ==> r == c
  {
    if IsLower(c) then (c as int - 32) as char else c
  }

  /** `str.lower()` */
  function Lower(s: string): (r: string)
    ensures |r| == |s|
    ensures forall i :: 0 <= i < |s| ==> r[i] == ToLower(s[i])
  {
    if |s| == 0 then [] else [ToLower(s[0])] + Lower(s[1..])
  }

  /** `str.upper()` */
  function Upper(s: string): (r: string)
    ensures |r| == |s|
    ensures forall i :: 0 <= i < |s| ==> r[i] == ToUpper(s[i])
  {
    if |s| == 0 then [] else [ToUpper(s[0])] + Upper(s[1..])
  }

  /** Upper-casing leaves a string without lower-case letters alone. */
  lemma UpperOfNoLower(s: string)
    requires NoLower(s)
    ensures Upper(s) == s
  {
  }

  /** The number of whitespace characters that open `s`. */
  function LeadingSpaces(s: string): (k: nat)
    ensures k <= |s|
    ensures AllSpace(s[..k])
    ensures k == |s| || !IsSpace(s[k])
  {
    if |s| == 0 || !IsSpace(s[0]) then 0 else 1 + LeadingSpaces(s[1..])
  }

  /** The index just past the last non-whitespace character of `s`. */
  function TrailingStart(s: string): (k: nat)
    ensures k <= |s|
    ensures AllSpace(s[k..])
    ensures k == 0 || !IsSpace(s[k - 1])
  {
    if |s| == 0 || !IsSpace(s[|s| - 1]) then |s| else TrailingStart(s[..|s| - 1])
  }

  /**
    Where `str.strip()` cuts `s`: everything before `start` and from `end`
    on is whitespace, and the kept slice starts and ends with a
    non-whitespace character unless it is empty.
   */
  function StripBounds(s: string): (b: (nat, nat))
    ensures b.0 <= b.1 <= |s|
    ensures AllSpace(s[..b.0]) && AllSpace(s[b.1..])
    ensures b.0 == b.1 || (!IsSpace(s[b.0]) && !IsSpace(s[b.1 - 1]))
  {
    var a := LeadingSpaces(s);
    var t := s[a..];
    var e := TrailingStart(t);
    assert t[e..] == s[a + e..];
    assert e > 0 ==> s[a] == t[0] && s[a + e - 1] == t[e - 1];
    (a, a + e)
  }

  /** `str.strip()`: the slice of `s` left once surrounding whitespace is cut away. */
  function Strip(s: string): (r: string)
    ensures exists a, b :: 0 <= a <= b <= |s| && r == s[a..b] && AllSpace(s[..a]) && AllSpace(s[b..])
    ensures |r| == 0 || (!IsSpace(r[0]) && !IsSpace(r[|r| - 1]))
  {
    var b := StripBounds(s);
    s[b.0..b.1]
  }

  /** Stripping only removes characters, so it cannot introduce a lower-case letter. */
  lemma StripKeepsNoLower(s: string)
    requires NoLower(s)
    ensures NoLower(Strip(s))
  {
    var b := StripBounds(s);
    var r := s[b.0..b.1];
    forall i | 0 <= i < |r|
      ensures !IsLower(r[i])
    {
      assert r[i] == s[b.0 + i];
    }
  }

  /** A string that neither starts nor ends with whitespace is its own strip. */
  lemma StripOfTrimmed(s: string)
    requires |s| == 0 || (!IsSpace(s[0]) && !IsSpace(s[|s| - 1]))
    ensures Strip(s) == s
  {
  }

  /** `t` has whitespace at exactly the positions where `s` has it. */
  predicate SameSpaces(s: string, t: string) {
    |s| == |t| && forall i :: 0 <= i < |s| ==> (IsSpace(s[i]) <==> IsSpace(t[i]))
  }

  lemma SameSpacesSlice(s: string, t: string, lo: nat, hi: nat)
    requires SameSpaces(s, t)
    requires lo <= hi <= |s|
    ensures SameSpaces(s[lo..hi], t[lo..hi])
  {
    forall i | 0 <= i < hi - lo
      ensures IsSpace(s[lo..hi][i]) <==> IsSpace(t[lo..hi][i])
    {
      assert s[lo..hi][i] == s[lo + i] && t[lo..hi][i] == t[lo + i];
    }
  }

  lemma {:induction false} LeadingSpacesOfSameSpaces(s: string, t: string)
    requires SameSpaces(s, t)
    ensures LeadingSpaces(s) == LeadingSpaces(t)
  {
    if |s| > 0 && IsSpace(s[0]) {
      SameSpacesSlice(s, t, 1, |s|);
      assert s[1..|s|] == s[1..] && t[1..|t|] == t[1..];
      LeadingSpacesOfSameSpaces(s[1..], t[1..]);
    }
  }

  lemma {:induction false} TrailingStartOfSameSpaces(s: string, t: string)
    requires SameSpaces(s, t)
    ensures TrailingStart(s) == TrailingStart(t)
  {
    if |s| > 0 && IsSpace(s[|s| - 1]) {
      SameSpacesSlice(s, t, 0, |s| - 1);
      assert s[0..|s| - 1] == s[..|s| - 1] && t[0..|t| - 1] == t[..|t| - 1];
      TrailingStartOfSameSpaces(s[..|s| - 1], t[..|t| - 1]);
    }
  }

  /** `strip()` cuts two strings at the same places when their whitespace sits at the same places. */
  lemma StripBoundsOfSameSpaces(s: string, t: string)
    requires SameSpaces(s, t)
    ensures StripBounds(s) == StripBounds(t)
  {
    LeadingSpacesOfSameSpaces(s, t);
    var a := LeadingSpaces(s);
    var sa, ta := s[a..], t[a..];
    assert SameSpaces(sa, ta) by {
      forall i | 0 <= i < |sa|
        ensures IsSpace(sa[i]) <==> IsSpace(ta[i])
      {
        assert sa[i] == s[a + i] && ta[i] == t[a + i];
      }
    }
    TrailingStartOfSameSpaces(sa, ta);
  }

  /** Upper-casing a slice is slicing the upper-cased string. */
  lemma UpperSlice(s: string, lo: nat, hi: nat)
    requires lo <= hi <= |s|
    ensures Upper(s)[lo..hi] == Upper(s[lo..hi])
  {
    var x, y := Upper(s)[lo..hi], Upper(s[lo..hi]);
    forall i | 0 <= i < hi - lo
      ensures x[i] == y[i]
    {
      assert x[i] == Upper(s)[lo + i];
      assert s[lo..hi][i] == s[lo + i];
    }
  }

  /** Upper-casing keeps whitespace exactly where it was. */
  lemma UpperSameSpaces(s: string)
    ensures SameSpaces(s, Upper(s))
  {
    var u := Upper(s);
    forall i | 0 <= i < |s|
      ensures IsSpace(s[i]) <==> IsSpace(u[i])
    {
      assert u[i] == ToUpper(s[i]);
    }
  }

  /** Upper-casing and stripping commute: `s.upper().strip() == s.strip().upper()`. */
  lemma StripUpperCommute(s: string)
    ensures Strip(Upper(s)) == Upper(Strip(s))
  {
    UpperSameSpaces(s);
    StripBoundsOfSameSpaces(s, Upper(s));
    var b := StripBounds(s);
    UpperSlice(s, b.0, b.1);
  }
}

=== FILE: words.dfy ===
/**
  Word canonicalisation (build_words.py `normalize`) and the whole-word
  pattern `WORD_RE = ^[a-z]+$` that decides which rows survive.
 */
module Words {
  import opened Text

  /** `re.sub(r"[^a-z]", "", s)`: keep the characters of class `[a-z]`, in order. */
  function KeepLower(s: string): (r: string)
    ensures AllLower(r)
    ensures |r| <= |s|
    ensures forall c :: c in r <==> c in s && IsLower(c)
    ensures AllLower(s) ==> r == s
  {
    if |s| == 0 then []
    else (if IsLower(s[0]) then [s[0]] else []) + KeepLower(s[1..])
  }

  /** Filtering a concatenation filters each part: the kept characters stay in input order. */
  lemma {:induction false} KeepLowerAppend(a: string, b: string)
    ensures KeepLower(a + b) == KeepLower(a) + KeepLower(b)
  {
    if |a| == 0 {
      assert a + b == b;
    } else {
      assert (a + b)[0] == a[0];
      assert (a + b)[1..] == a[1..] + b;
      KeepLowerAppend(a[1..], b);
    }
  }

  /**
    Reference reading of normalisation: the ASCII letters of `s`, in
    order, each in lower case.  Nothing else of `s` shows.
   */
  function LowerLetters(s: string): string {
    if |s| == 0 then []
    else (if IsLetter(s[0]) then [ToLower(s[0])] else []) + LowerLetters(s[1..])
  }

  predicate HasLetter(s: string) {
    exists i :: 0 <= i < |s| && IsLetter(s[i])
  }

  /**
    `normalize(w)`: strip, lower-case, then drop every character outside
    `a`..`z`.  The result is exactly the ASCII letters of `w`, lower-cased,
    in their original order.
   */
  function Normalize(w: string): (r: string)
    ensures AllLower(r)
    ensures r == LowerLetters(w)
  {
    var s := Strip(w);
    NormalizeIgnoresStrip(w);
    KeepLower(Lower(s))
  }

  /** `WORD_RE.match(s)` for `^[a-z]+$`: `$` also matches before one final newline. */
  predicate MatchesWordRe(s: string) {
    || (|s| > 0 && AllLower(s))
    || (|s| > 1 && s[|s| - 1] == '\n' && AllLower(s[..|s| - 1]))
  }

  lemma {:induction false} KeepLowerOfLower(s: string)
    ensures KeepLower(Lower(s)) == LowerLetters(s)
  {
    if |s| > 0 {
      assert Lower(s)[1..] == Lower(s[1..]);
      KeepLowerOfLower(s[1..]);
    }
  }

  lemma {:induction false} LowerLettersAppend(a: string, b: string)
    ensures LowerLetters(a + b) == LowerLetters(a) + LowerLetters(b)
  {
    if |a| == 0 {
      assert a + b == b;
    } else {
      var head := if IsLetter(a[0]) then [ToLower(a[0])] else [];
      assert (a + b)[0] == a[0];
      assert (a + b)[1..] == a[1..] + b;
      assert LowerLetters(a + b) == head + LowerLetters(a[1..] + b);
      LowerLettersAppend(a[1..], b);
      assert LowerLetters(a) == head + LowerLetters(a[1..]);
    }
  }

  lemma {:induction false} LowerLettersOfSpaces(s: string)
    requires AllSpace(s)
    ensures LowerLetters(s) == []
  {
    if |s| > 0 {
      LowerLettersOfSpaces(s[1..]);
    }
  }

  lemma NormalizeIgnoresStrip(w: string)
    ensures KeepLower(Lower(Strip(w))) == LowerLetters(w)
  {
    var b := StripBounds(w);
    var pre, mid, post := w[..b.0], w[b.0..b.1], w[b.1..];
    assert w == pre + mid + post;
    LowerLettersAppend(pre + mid, post);
    LowerLettersAppend(pre, mid);
    LowerLettersOfSpaces(pre);
    LowerLettersOfSpaces(post);
    KeepLowerOfLower(mid);
  }

  lemma {:induction false} LowerLettersOfLowerWord(s: string)
    requires AllLower(s)
    ensures LowerLetters(s) == s
  {
    if |s| > 0 {
      LowerLettersOfLowerWord(s[1..]);
    }
  }

  /** Normalising twice is normalising once. */
  lemma NormalizeIdempotent(w: string)
    ensures Normalize(Normalize(w)) == Normalize(w)
  {
    LowerLettersOfLowerWord(Normalize(w));
  }

  lemma {:induction false} LowerLettersEmpty(s: string)
    ensures LowerLetters(s) == [] <==> !HasLetter(s)
  {
    if |s| > 0 {
      LowerLettersEmpty(s[1..]);
      if HasLetter(s[1..]) {
        var i :| 0 <= i < |s| - 1 && IsLetter(s[1..][i]);
        assert IsLetter(s[i + 1]);
      }
      if HasLetter(s) && !IsLetter(s[0]) {
        var i :| 0 <= i < |s| && IsLetter(s[i]);
        assert IsLetter(s[1..][i - 1]);
      }
    }
  }

  /**
    A raw word passes the `WORD_RE` filter after normalisation exactly when
    it contains at least one ASCII letter: the pattern's trailing-newline
    allowance never applies to a normalised word.
   */
  lemma NormalizedMatchIffHasLetter(w: string)
    ensures MatchesWordRe(Normalize(w)) <==> HasLetter(w)
    ensures MatchesWordRe(Normalize(w)) <==> |Normalize(w)| > 0
  {
    var n := Normalize(w);
    LowerLettersEmpty(w);
    if |n| > 1 {
      assert IsLower(n[|n| - 1]);
    }
  }
}
